=== FILE: README.md ===
# VLAN command server: a Dafny model of its decision logic

The program is a small TCP command server (`main.c`). It reads text commands
such as `set vlan v2 id 2`. It drives Linux network links through libnl's
route API (`rtnl_link_*`), which sends netlink messages to the kernel.

This project models the logic that sits between those library calls:

- **`get_words`**: the word counter. It is a method with a scanning loop,
  proved against a specification function.
- **`process_command`**: the ordered chain of string tests that classifies a
  command line.
- **`cmd_rename_interfaces`**:
  - selecting links by name prefix;
  - building the new name;
  - folding per-link outcomes into a return code.
- **`cmd_set_vlan`**:
  - `atoi` and the id range check;
  - the alias or last-dot suffix match;
  - the update loop and its `found`/`ret_code` aggregation.
- **`cmd_set_vlan_on_interface`**: the contents of the RTM_NEWLINK request it
  builds.
- **`cmd_show_vlan`**: the VLAN filter and the `"-"` fallback for a parent
  that is not in the cache.

How the library and the kernel are represented:

- The kernel's link table is a value, `seq<Link>`. It is the snapshot that
  `rtnl_link_alloc_cache` returns.
- Each call into libnl or the kernel that can fail is an input:
  - an allocation oracle `mallocOk` for `get_words`;
  - a sequence of per-link `Attempt`s for the update loops: `Applied`,
    `KernelRejects` or `AllocFails`;
  - plain booleans for the single request of `cmd_set_vlan_on_interface`.
- C strings are `CStr`, a `seq<char>` without NUL. `CharAt(s, |s|)` is the
  terminator.
- A NULL pointer is `None`.

Modules:

| file | module | models |
|---|---|---|
| `wrappers.dfy` | Wrappers | `Option` |
| `cstring.dfy` | CString | `strncmp`, `snprintf` truncation, `strrchr` |
| `atoi.dfy` | Conversions | `atoi` (section 7.22.1.2 of ISO/IEC 9899:2011) |
| `words.dfy` | Words | `get_words` |
| `dispatch.dfy` | Dispatch | `process_command` |
| `links.dfy` | LinkCache | the link snapshot and its lookups |
| `rename.dfy` | Rename | `cmd_rename_interfaces` |
| `set_vlan.dfy` | VlanUpdate | `cmd_set_vlan` |
| `create.dfy` | VlanCreate | `cmd_set_vlan_on_interface` |
| `show.dfy` | VlanShow | `cmd_show_vlan` |

## Model

| member | source | states |
|---|---|---|
| Words.GetWordsResult | main.c:31-113 | Return codes:<br>• -1 for NULL `str` (count untouched);<br>• -2 for NULL `cnt`;<br>• -3 iff the `words` array cannot be allocated, -4 iff that succeeds and the `word` buffer cannot be, both with `*cnt` reset to 0;<br>• -5 when a word copy cannot be allocated: `*cnt` is below `WordCount`, that copy's allocation failed and every earlier one succeeded;<br>• 0 exactly when every allocation succeeds, with `*cnt` = `WordCount`. |
| Words.GetWords | main.c:31-113 | The scanning loop over positions 0..strlen inclusive. It yields exactly `GetWordsResult`; loop invariants tie the running count to `CommitsBefore`. |
| Words.WordCountIsBoundaryCount | main.c:79-108 | The count equals the number of positions `i < strlen` where `str[i]` is `' '` or `'0'` and `str[i-1]` is neither. |
| Words.AppendSeparator | main.c:81-105 | A separator commits the word before it, if there is one. |
| Words.AppendWordChar | main.c:81-85 | A further word character commits nothing. |
| Words.TrailingWordNotCounted | main.c:79-85 | A word at the very end of the string is never counted, because the NUL at `str[length]` is treated as a word character. |
| Words.SingleWordCountsZero | main.c:79-108 | A line without separators counts zero words. |
| Words.WordThenSeparator | main.c:86-107 | A word followed by a separator adds exactly one to the count. |
| Dispatch.CommandReply | main.c:199-203 | A negative `get_words` result gives "Bad format command string", before any test. The reply is that exactly when `get_words` fails. |
| Dispatch.ProcessCommand | main.c:194-255 | The dispatcher:<br>• answers "Bad format command string" iff `get_words` fails;<br>• never calls the rename or create handler;<br>• once the count succeeded, takes the set-vlan branch iff the line starts with `"set vlan "`, and calls `cmd_set_vlan` iff in addition the count is 5. |
| Dispatch.ShowCommandsExact | main.c:205-227 | The two show commands run only on their exact text. |
| CString.StrNCmpEqualIff | main.c:229 | `strncmp(a, b, n) == 0` holds iff:<br>• the first `n` characters agree when `b` has at least `n`;<br>• otherwise `a == b`, because the NUL is compared. |
| Dispatch.SetInterfaceBranchIsExact | main.c:229-238 | `strncmp` with n = 15 against the 14-character literal `"set interface "` selects exactly that text. |
| Dispatch.SetVlanPrefixSkipsEarlierTests | main.c:206-240 | A line starting with `"set vlan "` fails all four earlier tests. |
| Dispatch.SetVlanBranchIsPrefix | main.c:240-249 | The set-vlan branch is taken iff `get_words` succeeded and the line starts with `"set vlan "`. |
| Dispatch.ClassifyFallThrough | main.c:239-254 | The end of the test chain `Classify`:<br>• `cmd_set_vlan` is called iff the count succeeded, the line starts with `"set vlan "` and has 5 counted words;<br>• "Unknown command" iff the count succeeded and the line is none of the three exact commands, not `"set interface "`, and does not start with `"set vlan "`. |
| Dispatch.CountRenameInterfaces | main.c:212-219 | `"rename interfaces"` counts 1 word, not 4. |
| Dispatch.CountSetInterface | main.c:229-236 | `"set interface "` counts 2 words, not 7. |
| Dispatch.RenameAndCreateNeverExecuted | main.c:212-238 | No line ever makes `process_command` call `cmd_rename_interfaces` or `cmd_set_vlan_on_interface`. |
| Dispatch.CountSetVlanLines | main.c:239-243 | `"set vlan v2 id 2"` counts 4 words; with a trailing blank it counts 5. |
| Dispatch.DocumentedSetVlanLine | main.c:239-249 | The documented form is refused as "Bad format command"; only the form with a trailing blank reaches `cmd_set_vlan`. |
| CString.StrNCmpPrefix | main.c:399 | `strncmp(name, prefix, strlen(prefix)) == 0` iff `prefix` is a prefix of `name`. |
| CString.Truncate | main.c:402 | `snprintf` into a buffer of `size` bytes:<br>• keeps at most `size - 1` characters;<br>• keeps a prefix of the text;<br>• keeps all of it when it fits. |
| Rename.Selected | main.c:399 | A link is selected iff it has a name and that name starts with `prefix`; the empty prefix selects every named link. |
| Rename.NewName | main.c:402 | The new name has at most 15 characters and is a prefix of `new_prefix ++ name[prefix_len..]`. It is all of that text when it fits, and exactly its first 15 characters otherwise. |
| Rename.RenameRoundTrip | main.c:399-402 | When no truncation happens:<br>• the new name is selected by the new prefix;<br>• renaming back with the prefixes swapped restores the old name. |
| LinkCache.FirstAllocFailure | main.c:404-410 | The walk stops at the first selected link whose change object cannot be allocated; no earlier selected link failed to allocate. |
| Rename.RenameInterfaces | main.c:353-431 | -1 for a NULL argument, with nothing changed; otherwise 0 or -5. It returns 0 iff every selected link was renamed. Up to the stop, exactly the selected links the kernel accepted get the new name; every other link is unchanged. |
| Conversions.AtoiDecimal | main.c:688 | `atoi` reads back every decimal spelling. |
| Conversions.AtoiNegative | main.c:688 | A `-` directly before the decimal spelling of `n` makes `atoi` read `-n`. |
| Conversions.AtoiNonNumeric | main.c:688 | Text with no digit after its white space and optional sign converts to 0; this includes a lone sign and a sign followed by a non-digit. |
| VlanUpdate.ParseVlanId | main.c:688-693 | The id is accepted iff `atoi(id)` lies in [1, 4094], and then it is that value. |
| VlanUpdate.ParseVlanIdDecimal | main.c:688-693 | A decimal id `n` is accepted as `n` iff 1 <= n <= 4094. |
| VlanUpdate.ParseVlanIdLowerBoundary | main.c:688-693 | `"0"` is refused and `"1"` is accepted. |
| VlanUpdate.ParseVlanIdUpperBoundary | main.c:688-693 | `"4094"` is accepted and `"4095"` is refused. |
| VlanUpdate.ParseVlanIdNegative | main.c:688-693 | Every negative decimal id is refused. |
| VlanUpdate.ParseVlanIdNonNumeric | main.c:688-693 | Non-numeric text (no digit after the white space and optional sign, as in `"abc"`, `"-"` or `"+x"`) converts to 0 and is refused. |
| CString.LastIndexOf | main.c:738 | `strrchr`: the position of the last occurrence, or none when the character does not occur. |
| VlanUpdate.LastDotSuffixIff | main.c:738-739 | Comparing the text after the dot `strrchr` found with `ver` succeeds iff the name ends in `"." ++ ver` and `ver` holds no dot. |
| VlanUpdate.SuffixMatches | main.c:736-741 | The suffix test holds iff the name ends in `"." ++ ver` and `ver` holds no dot. |
| VlanUpdate.IsCandidate | main.c:727-744 | A link is a candidate iff it is a VLAN and either its alias is `ver` or its name ends in `"." ++ ver` with `ver` dot-free. |
| VlanUpdate.Candidates | main.c:716-744 | Position by position over the cache: the link is selected iff it is a VLAN and its alias is `ver` or its name ends in `"." ++ ver` with `ver` dot-free. |
| VlanUpdate.AliasOrSuffix | main.c:727-744 | Either test alone makes a VLAN link a candidate; a non-VLAN link never is one. |
| VlanUpdate.MatchesVersion | main.c:727-744 | The loop body's alias comparison, then `strrchr` and the comparison after the dot, answer yes iff the link is a VLAN and its alias is `ver` or its name ends in `"." ++ ver` with `ver` dot-free. |
| VlanUpdate.UpdateCandidates | main.c:716-771 | The update loop:<br>• one change request per candidate before the stop, in cache order, none for any other link;<br>• the links the kernel accepted get the new id, nothing else changes;<br>• `ret_code` is -6 iff the walk stopped early or a change was rejected;<br>• `found` iff some change was accepted. |
| VlanUpdate.SetVlan | main.c:672-782 | -1 for a NULL argument or an out-of-range id, before any request. Otherwise the result is in {0, -5, -6}:<br>• -6 whenever a change failed, and a later success does not clear it;<br>• -5 iff nothing failed and nothing succeeded;<br>• 0 iff nothing failed and something succeeded. |
| VlanCreate.VlanName | main.c:602 | The new name is `iface "." ver` cut to at most 15 characters; it is a prefix of that text, and all of it when it fits. |
| VlanCreate.SetVlanOnInterface | main.c:566-621 | Return codes:<br>• -1 iff an argument is NULL;<br>• -5 iff `iface` names no cached link;<br>• -6 when the link object cannot be allocated;<br>• -7 when the kernel rejects the request.<br>A request is sent iff the result is 0 or -7. The request carries the dotted name, the parent's ifindex, `type` as alias and VLAN id 1, and it sets `NLM_F_CREATE` without `NLM_F_EXCL`. |
| VlanCreate.CreatedLinkIsCandidate | main.c:602-619 | A VLAN created with a dot-free version and an uncut name is found by `cmd_set_vlan` for that version. |
| VlanCreate.DottedVersionFoundOnlyByAlias | main.c:602-619 | With a dot in the version, `cmd_set_vlan` finds the created link iff its type equals the version. |
| VlanCreate.LongParentNameIsKept | main.c:602 | A 15-character parent name leaves no room: the new link would carry the parent's own name. |
| VlanShow.ParentName | main.c:492-504 | The parent column is `"-"` when no cached link has the parent index, and otherwise the name of the first cached link that has it. |
| VlanShow.ShowVlan | main.c:487-520 | The walk yields exactly the table `VlanTable` and returns 0. |
| VlanShow.VlanTableListsVlans | main.c:496-497 | The table has one row per VLAN link; every row comes from a VLAN link and every VLAN link has its row. |
| VlanShow.CreateThenShow | main.c:492-504 | After a successful create, if the new link is appended under an index that no cached link uses and no cached link names as its parent, the table gains exactly one row: the new name, the parent interface and id 1. |

## Left out

- Socket set-up in every command is not modelled: `nl_socket_alloc`, `nl_connect` and `rtnl_link_alloc_cache`. Their failure codes -2, -3 and -4 in the rename, set-vlan and create commands, and -1, -2 and -3 in `cmd_show_vlan`, are therefore not modelled. The commands start from a snapshot that was obtained successfully.
- Reference counting (`rtnl_link_put`, `nl_cache_free`) and `nl_geterror` messages are not modelled.
- All printed output is left out: the tables, "Executing" lines, error messages, and `rtnl_link_vlan_flags2str`.
- `ShowVlan` returns the rows it would print, not the formatted text; the flags column is not modelled.
- `GetWords` models only the count and the return code. It does not model the word copies:
  - they are "terminated" with the character `'0'` and copied with `strcpy`, which is undefined behaviour;
  - the `words` array is passed by value, so it never reaches the caller, who keeps a NULL `cmd_words`.
- `GetWords`: the `words` argument is not modelled. `process_command` always passes NULL, and the not-NULL branch (lines 52-57) frees memory the caller keeps.
- `ProcessCommand`: models the branch taken, not the handler call it makes. The arguments it passes (`cmd_words[2]` and so on) index a NULL array.
- `cmd_show_interfaces` is not part of this model. It only prints the link table.
- The server loop (`main`, `set_reuseraddr`, `set_nonblocking`) is not modelled: it is network I/O and polling.
- `create_vlan` is not modelled: it is never called and is netlink message plumbing.
- `SetVlan` requires `atoi(id)` to fit an `int` when both arguments are non-NULL. An `atoi` overflow is undefined behaviour in C, so longer digit strings are outside the model.
- What the kernel does with a request is an input (`Attempt`, `kernelOk`), not modelled. This covers, for instance, what RTM_NEWLINK does with `NLM_F_CREATE` and no `NLM_F_EXCL` when the name already exists.
- `VlanCreate.CreatedLink` is an assumption about what the kernel adds for an accepted request (a VLAN link carrying the request's fields), not a model of `main.c`. `VlanShow.CreateThenShow` also assumes where the kernel places a new link: at the end of the next snapshot, under an index that no cached link uses and no cached link names as its parent. The real kernel's index and order are its own choice.
- The create request is not exclusive: main.c:621 passes only `NLM_F_CREATE`. The model states that `NLM_F_EXCL` is clear.

=== FILE: atoi.dfy ===
/**
 * `atoi` as section 7.22.1.2 of ISO/IEC 9899:2011 defines it: the value of
 * `strtol(s, NULL, 10)` for inputs whose value is representable as `int`.
 * Leading white space is skipped, one optional sign is accepted, and the
 * longest run of decimal digits that follows gives the value; text without
 * such a run converts to 0.
 */
module Conversions {
  import opened CString

  const INT_MIN: int := -0x8000_0000
  const INT_MAX: int := 0x7FFF_FFFF

  /** isspace in the "C" locale: space, \t, \n, \v, \f, \r. */
  predicate IsSpace(c: char) {
    c == ' ' || ('\t' <= c <= '\r')
  }

  predicate IsDigit(c: char) {
    '0' <= c <= '9'
  }

  function DigitValue(c: char): (d: nat)
    requires IsDigit(c)
    ensures d < 10
  {
    (c as int) - ('0' as int)
  }

  function DigitChar(d: nat): (c: char)
    requires d < 10
    ensures IsDigit(c) && DigitValue(c) == d
  {
    (('0' as int) + d) as char
  }

  /** The string after its leading white space. */
  function SkipSpaces(s: CStr): (r: CStr)
    ensures |r| <= |s| && r == s[|s| - |r|..]
    ensures forall i :: 0 <= i < |s| - |r| ==> IsSpace(s[i])
    ensures r != [] ==> !IsSpace(r[0])
  {
    if s != [] && IsSpace(s[0]) then SkipSpaces(s[1..]) else s
  }

  /** The longest prefix of `s` made of decimal digits. */
  function LeadingDigits(s: CStr): (r: CStr)
    ensures r <= s
    ensures forall i :: 0 <= i < |r| ==> IsDigit(r[i])
    ensures |r| < |s| ==> !IsDigit(s[|r|])
  {
    if s != [] && IsDigit(s[0]) then [s[0]] + LeadingDigits(s[1..]) else []
  }

  /** The value of a string of decimal digits, most significant first. */
  function DecimalValue(ds: seq<char>): nat
    requires forall i :: 0 <= i < |ds| ==> IsDigit(ds[i])
  {
    if ds == [] then 0 else 10 * DecimalValue(ds[..|ds| - 1]) + DigitValue(ds[|ds| - 1])
  }

  /** The unsigned part: the value of the leading digits of `t`. */
  function Magnitude(t: CStr): int {
    DecimalValue(LeadingDigits(t))
  }

  function Atoi(s: CStr): int {
    var t := SkipSpaces(s);
    if t != [] && t[0] == '-' then -Magnitude(t[1..])
    else if t != [] && t[0] == '+' then Magnitude(t[1..])
    else Magnitude(t)
  }

  /** The decimal spelling of `n`, without sign or leading zeros. */
  function Decimal(n: nat): (r: CStr)
    ensures r != [] && IsDigit(r[0])
    ensures forall i :: 0 <= i < |r| ==> IsDigit(r[i])
  {
    if n < 10 then [DigitChar(n)] else Decimal(n / 10) + [DigitChar(n % 10)]
  }

  lemma {:induction false} DecimalValueOfDecimal(n: nat)
    ensures DecimalValue(Decimal(n)) == n
  {
    if n >= 10 {
      var d := Decimal(n);
      assert d[..|d| - 1] == Decimal(n / 10);
      DecimalValueOfDecimal(n / 10);
    }
  }

  lemma {:induction false} LeadingDigitsOfDigits(s: CStr)
    requires forall i :: 0 <= i < |s| ==> IsDigit(s[i])
    ensures LeadingDigits(s) == s
  {
    if s != [] {
      LeadingDigitsOfDigits(s[1..]);
    }
  }

  /** atoi reads back every decimal spelling it is given. */
  lemma AtoiDecimal(n: nat)
    ensures Atoi(Decimal(n)) == n
  {
    var d := Decimal(n);
    assert !IsSpace(d[0]);
    assert SkipSpaces(d) == d;
    LeadingDigitsOfDigits(d);
    DecimalValueOfDecimal(n);
    assert Magnitude(d) == n;
  }

  /** A leading minus sign negates the value atoi reads. */
  lemma AtoiNegative(n: nat)
    ensures Atoi(['-'] + Decimal(n)) == -(n as int)
  {
    var d := Decimal(n);
    var s: CStr := ['-'] + d;
    assert SkipSpaces(s) == s;
    assert s[1..] == d;
    LeadingDigitsOfDigits(d);
    DecimalValueOfDecimal(n);
    assert Magnitude(d) == n;
  }

  /** No digit follows the leading white space and the optional sign. */
  predicate NonNumeric(s: CStr) {
    var t := SkipSpaces(s);
    var u := if t != [] && (t[0] == '-' || t[0] == '+') then t[1..] else t;
    u == [] || !IsDigit(u[0])
  }

  /** Non-numeric text, including a lone or misplaced sign, converts to 0. */
  lemma AtoiNonNumeric(s: CStr)
    requires NonNumeric(s)
    ensures Atoi(s) == 0
  {
  }
}

=== FILE: create.dfy ===
/**
 * `cmd_set_vlan_on_interface(iface, type, ver)`: look the parent interface up
 * by name, then ask the kernel (RTM_NEWLINK) for a VLAN link named
 * "<iface>.<ver>" on top of it, with `type` as its alias and the placeholder
 * VLAN id 1, which `cmd_set_vlan` later replaces.
 */
module VlanCreate {
  import opened Wrappers
  import opened CString
  import opened LinkCache
  import opened VlanUpdate

  /** Netlink request flags (linux/netlink.h). */
  const NLM_F_EXCL: bv16 := 0x200
  const NLM_F_CREATE: bv16 := 0x400

  /** The VLAN id every new VLAN link starts with. */
  const PLACEHOLDER_VLAN_ID: int := 1

  /** The link object handed to `rtnl_link_add`, field by field. */
  datatype NewLink = NewLink(name: CStr, parent: int, alias: CStr, vlanId: int)

  /** One RTM_NEWLINK request: the link and the netlink flags it is sent with. */
  datatype Request = Request(link: NewLink, flags: bv16)

  /** The return code, and the request sent to the kernel if one was sent. */
  datatype CreateResult = CreateResult(ret: int, request: Option<Request>)

  /**
   * `snprintf(vlan_ifname, IFNAMSIZ, "%s.%s", iface, ver)`: the parent name,
   * a dot and the version, cut to at most IFNAMSIZ - 1 characters.
   */
  function VlanName(iface: CStr, ver: CStr): (r: CStr)
    ensures |r| <= IFNAMSIZ - 1
    ensures r <= iface + ['.'] + ver
    ensures |iface| + 1 + |ver| <= IFNAMSIZ - 1 ==> r == iface + ['.'] + ver
    ensures |iface| + 1 + |ver| > IFNAMSIZ - 1 ==> |r| == IFNAMSIZ - 1
  {
    Truncate(iface + ['.'] + ver, IFNAMSIZ)
  }

  /**
   * The command after its NULL checks. `allocOk` is whether
   * `rtnl_link_vlan_alloc` succeeds and `kernelOk` whether the kernel accepts
   * the RTM_NEWLINK request.
   */
  function SetVlanOnInterface(iface: Option<CStr>, vlanType: Option<CStr>, ver: Option<CStr>,
                              cache: seq<Link>, allocOk: bool, kernelOk: bool): (r: CreateResult)
    // NULL arguments are refused before anything else
    ensures iface.None? || vlanType.None? || ver.None? <==> r.ret == -1
    ensures r.ret in {0, -1, -5, -6, -7}
    // an unknown parent is refused
    ensures iface.Some? && vlanType.Some? && ver.Some? ==>
              (r.ret == -5 <==> FindByName(cache, iface.value).None?)
    // a request goes out exactly when the parent exists and the link object was allocated
    ensures r.request.Some? <==> r.ret == 0 || r.ret == -7
    ensures r.ret == -6 <==> r.ret !in {-1, -5} && !allocOk
    ensures r.ret == 0 <==> r.request.Some? && kernelOk
    // the request: the dotted name, the parent's index, the type as alias, id 1,
    // and the create flag without the exclusive flag
    ensures r.request.Some? ==>
              && iface.Some? && vlanType.Some? && ver.Some?
              && FindByName(cache, iface.value).Some?
              && var parent := cache[FindByName(cache, iface.value).value];
                 && parent.name == iface
                 && r.request.value.link.name == VlanName(iface.value, ver.value)
                 && r.request.value.link.parent == parent.ifindex
                 && r.request.value.link.alias == vlanType.value
                 && r.request.value.link.vlanId == PLACEHOLDER_VLAN_ID
                 && r.request.value.flags & NLM_F_CREATE != 0
                 && r.request.value.flags & NLM_F_EXCL == 0
  {
    if iface.None? || vlanType.None? || ver.None? then CreateResult(-1, None)
    else match FindByName(cache, iface.value)
      case None => CreateResult(-5, None)
      case Some(p) =>
        var name := VlanName(iface.value, ver.value);
        if !allocOk then CreateResult(-6, None)
        else
          var link := NewLink(name, cache[p].ifindex, vlanType.value, PLACEHOLDER_VLAN_ID);
          var request := Request(link, NLM_F_CREATE);
          CreateResult(if kernelOk then 0 else -7, Some(request))
  }

  /** The link the kernel adds for an accepted request, under the index it picks. */
  function CreatedLink(request: Request, newIndex: int): (l: Link)
    ensures l.isVlan && l.ifindex == newIndex
    ensures l.name == Some(request.link.name) && l.alias == Some(request.link.alias)
    ensures l.parent == request.link.parent && l.vlanId == request.link.vlanId
  {
    Link(newIndex, Some(request.link.name), true, Some(request.link.alias),
         request.link.parent, request.link.vlanId)
  }

  /**
   * A VLAN link created with a dot-free version whose name was not cut is
   * found again by `cmd_set_vlan` for that version, whatever its type.
   */
  lemma CreatedLinkIsCandidate(iface: CStr, vlanType: CStr, ver: CStr, cache: seq<Link>, newIndex: int)
    requires '.' !in ver
    requires |iface| + 1 + |ver| <= IFNAMSIZ - 1
    requires SetVlanOnInterface(Some(iface), Some(vlanType), Some(ver), cache, true, true).ret == 0
    ensures var r := SetVlanOnInterface(Some(iface), Some(vlanType), Some(ver), cache, true, true);
            IsCandidate(CreatedLink(r.request.value, newIndex), ver)
  {
    var name := iface + ['.'] + ver;
    assert name[|name| - |ver|..] == ver;
    assert name[|name| - |ver| - 1] == '.';
  }

  /**
   * A version containing a dot can never be matched through the name suffix,
   * so `cmd_set_vlan` finds the created link only when its type equals the version.
   */
  lemma DottedVersionFoundOnlyByAlias(iface: CStr, vlanType: CStr, ver: CStr, cache: seq<Link>, newIndex: int)
    requires '.' in ver
    requires SetVlanOnInterface(Some(iface), Some(vlanType), Some(ver), cache, true, true).ret == 0
    ensures var r := SetVlanOnInterface(Some(iface), Some(vlanType), Some(ver), cache, true, true);
            IsCandidate(CreatedLink(r.request.value, newIndex), ver) <==> vlanType == ver
  {
  }

  /**
   * A parent name that already fills the buffer pushes the dot and the
   * version out: the new link would get the parent's own name.
   */
  lemma LongParentNameIsKept(iface: CStr, ver: CStr)
    requires |iface| == IFNAMSIZ - 1
    ensures VlanName(iface, ver) == iface
  {
    assert (iface + ['.'] + ver)[..IFNAMSIZ - 1] == iface;
  }
}

=== FILE: cstring.dfy ===
/**
 * The C string operations the control plane relies on: the NUL terminator,
 * strncmp, strrchr and the truncation performed by snprintf.
 */
module CString {
  import opened Wrappers

  /** The contents of a C string up to (not including) its terminating NUL. */
  type CStr = s: seq<char> | '\0' !in s

  /** Size of a kernel interface name buffer, terminator included (IFNAMSIZ). */
  const IFNAMSIZ: nat := 16

  /** `str[i]` for `0 <= i <= strlen(str)`: position `|s|` is the terminator. */
  function CharAt(s: CStr, i: nat): (c: char)
    requires i <= |s|
    ensures c == '\0' <==> i == |s|
  {
    if i < |s| then s[i] else '\0'
  }

  /**
   * `strncmp(a, b, n) == 0`: the first `n` characters agree, where the
   * comparison stops early at a terminator both strings share.
   */
  function StrNCmpEqual(a: CStr, b: CStr, n: nat): bool {
    StrNCmpEqualFrom(a, b, 0, n)
  }

  /** The comparison of strncmp from position `i` on, given agreement before `i`. */
  function StrNCmpEqualFrom(a: CStr, b: CStr, i: nat, n: nat): bool
    requires i <= |a| && i <= |b|
    decreases n - i
  {
    i >= n ||
    (CharAt(a, i) == CharAt(b, i) &&
     (CharAt(a, i) == '\0' || StrNCmpEqualFrom(a, b, i + 1, n)))
  }

  lemma {:induction false} StrNCmpEqualFromIff(a: CStr, b: CStr, i: nat, n: nat)
    requires i <= |a| && i <= |b| && a[..i] == b[..i]
    ensures StrNCmpEqualFrom(a, b, i, n) <==>
            if n <= |b| then n <= i || (n <= |a| && a[..n] == b[..n]) else a == b
    decreases n - i
  {
    if i >= n {
      if n <= |b| {
        assert a[..n] == a[..i][..n] == b[..i][..n] == b[..n];
      }
    } else if i == |a| || i == |b| {
      if i == |a| && i == |b| {
        assert a == a[..i] && b == b[..i];
      } else {
        assert |a| != |b|;
      }
    } else if a[i] != b[i] {
      if n <= |b| && n <= |a| {
        assert a[..n][i] != b[..n][i];
      }
    } else {
      assert a[..i + 1] == b[..i + 1] by {
        assert a[..i + 1] == a[..i] + [a[i]];
        assert b[..i + 1] == b[..i] + [b[i]];
      }
      StrNCmpEqualFromIff(a, b, i + 1, n);
    }
  }

  /**
   * What strncmp decides for C strings: when `n` does not exceed `|b|` it is a
   * test that `a` starts with the first `n` characters of `b`; when `n` reaches
   * past the terminator of `b`, it is plain equality.
   */
  lemma StrNCmpEqualIff(a: CStr, b: CStr, n: nat)
    ensures StrNCmpEqual(a, b, n) <==>
            if n <= |b| then n <= |a| && a[..n] == b[..n] else a == b
  {
    StrNCmpEqualFromIff(a, b, 0, n);
  }

  /** `strncmp(name, prefix, strlen(prefix)) == 0` is exactly "prefix is a prefix of name". */
  lemma StrNCmpPrefix(name: CStr, prefix: CStr)
    ensures StrNCmpEqual(name, prefix, |prefix|) <==> prefix <= name
  {
    StrNCmpEqualIff(name, prefix, |prefix|);
  }

  /**
   * What `snprintf(buf, size, ...)` stores for a formatted text `s`: at most
   * `size - 1` characters, the longest prefix of `s` that fits.
   */
  function Truncate(s: CStr, size: nat): (r: CStr)
    requires size >= 1
    ensures |r| <= size - 1
    ensures r <= s
    ensures |s| <= size - 1 ==> r == s
    ensures |s| > size - 1 ==> |r| == size - 1
  {
    if |s| <= size - 1 then s else s[..size - 1]
  }

  /** `strrchr(s, c)` for a non-NUL `c`: the position of the last occurrence. */
  function LastIndexOf(s: CStr, c: char): (r: Option<nat>)
    ensures r.Some? ==> r.value < |s| && s[r.value] == c &&
                        forall j :: r.value < j < |s| ==> s[j] != c
    ensures r.None? ==> c !in s
  {
    if s == [] then None
    else if s[|s| - 1] == c then Some(|s| - 1)
    else LastIndexOf(s[..|s| - 1], c)
  }
}

=== FILE: dispatch.dfy ===
/**
 * `process_command`: the dispatcher that classifies one command line. It
 * counts the words with `get_words` and then runs a fixed, ordered chain of
 * string tests, each followed by a check of the word count. Only the
 * decision is modelled, not the arguments handed on to the command.
 */
module Dispatch {
  import opened Wrappers
  import opened CString
  import opened Words

  /** The five command handlers. */
  datatype Command = ShowInterfaces | RenameInterfaces | ShowVlan | SetVlanOnInterface | SetVlan

  /** What `process_command` does with a line. */
  datatype Reply =
    | BadCommandString          // get_words failed: "Bad format command string"
    | Executing(cmd: Command)   // "Executing: ..." and the handler is called
    | BadFormat(cmd: Command)   // "Executing: ..." then "Bad format command", no call
    | UnknownCommand            // "Unknown command"

  /** Is `reply` one of the two outcomes of the branch for `c`? */
  predicate Selects(reply: Reply, c: Command) {
    reply == Executing(c) || reply == BadFormat(c)
  }

  /** The test chain, given the result of `get_words` (return code and count). */
  function Classify(cmd: CStr, wordsRet: int, count: int): Reply {
    if wordsRet < 0 then BadCommandString
    else if cmd == "show interfaces" then Executing(ShowInterfaces)
    else if cmd == "rename interfaces" then
      if count != 4 then BadFormat(RenameInterfaces) else Executing(RenameInterfaces)
    else if cmd == "show vlan" then Executing(ShowVlan)
    else if StrNCmpEqual(cmd, "set interface ", 15) then
      if count != 7 then BadFormat(SetVlanOnInterface) else Executing(SetVlanOnInterface)
    else if StrNCmpEqual(cmd, "set vlan ", 9) then
      if count != 5 then BadFormat(SetVlan) else Executing(SetVlan)
    else UnknownCommand
  }

  /** The reply to `cmd`; `get_words` is called with a zeroed counter. */
  function CommandReply(cmd: Option<CStr>, mallocOk: nat -> bool): (reply: Reply)
    ensures GetWordsResult(cmd, Some(0), mallocOk).0 < 0 <==> reply == BadCommandString
  {
    var (ret, cnt) := GetWordsResult(cmd, Some(0), mallocOk);
    if ret < 0 then BadCommandString else Classify(cmd.value, ret, cnt.value)
  }

  /** The two plain "show" commands match only the exact text. */
  lemma ShowCommandsExact(cmd: CStr, count: int)
    ensures Classify(cmd, 0, count) == Executing(ShowInterfaces) <==> cmd == "show interfaces"
    ensures Classify(cmd, 0, count) == Executing(ShowVlan) <==> cmd == "show vlan"
  {
  }

  /**
   * `strncmp(cmd, "set interface ", 15)` reaches past the 14-character
   * literal, so the branch is taken only for that exact text.
   */
  lemma SetInterfaceBranchIsExact(cmd: CStr, wordsRet: int, count: int)
    ensures Selects(Classify(cmd, wordsRet, count), SetVlanOnInterface) <==>
            wordsRet >= 0 && cmd == "set interface "
  {
    StrNCmpEqualIff(cmd, "set interface ", 15);
  }

  /** A line starting with "set vlan " fails every test before the "set vlan" one. */
  lemma SetVlanPrefixSkipsEarlierTests(cmd: CStr)
    requires "set vlan " <= cmd
    ensures cmd != "show interfaces" && cmd != "rename interfaces" && cmd != "show vlan"
    ensures !StrNCmpEqual(cmd, "set interface ", 15)
  {
    assert cmd[0] == 's' && cmd[1] == 'e' && cmd[4] == 'v';
    StrNCmpEqualIff(cmd, "set interface ", 15);
  }

  /** The "set vlan" branch is a prefix test on the first nine characters. */
  lemma SetVlanBranchIsPrefix(cmd: CStr, wordsRet: int, count: int)
    ensures Selects(Classify(cmd, wordsRet, count), SetVlan) <==>
            wordsRet >= 0 && "set vlan " <= cmd
  {
    StrNCmpEqualIff(cmd, "set vlan ", 9);
    if wordsRet >= 0 && "set vlan " <= cmd {
      SetVlanPrefixSkipsEarlierTests(cmd);
    }
  }

  lemma CountRenameInterfaces()
    ensures WordCount("rename interfaces") == 1
  {
    WordThenSeparator([], "rename", ' ');
    assert [] + "rename" + [' '] == "rename ";
    SingleWordCountsZero([]);
    TrailingWordNotCounted("rename ", "interfaces");
    assert "rename " + "interfaces" == "rename interfaces";
  }

  lemma CountSetInterface()
    ensures WordCount("set interface ") == 2
  {
    SingleWordCountsZero([]);
    WordThenSeparator([], "set", ' ');
    assert [] + "set" + [' '] == "set ";
    WordThenSeparator("set ", "interface", ' ');
    assert "set " + "interface" + [' '] == "set interface ";
  }

  /**
   * The last two tests and the fallback: a line reaches the "set vlan"
   * handler iff it starts with "set vlan " and has five counted words, and a
   * line is unknown iff it is none of the three exact commands, not exactly
   * "set interface " and does not start with "set vlan ".
   */
  lemma ClassifyFallThrough(cmd: CStr, wordsRet: int, count: int)
    ensures Classify(cmd, wordsRet, count) == Executing(SetVlan) <==>
            wordsRet >= 0 && "set vlan " <= cmd && count == 5
    ensures Classify(cmd, wordsRet, count) == UnknownCommand <==>
            && wordsRet >= 0
            && cmd !in {"show interfaces", "rename interfaces", "show vlan", "set interface "}
            && !("set vlan " <= cmd)
  {
    StrNCmpEqualIff(cmd, "set interface ", 15);
    StrNCmpEqualIff(cmd, "set vlan ", 9);
    if "set vlan " <= cmd {
      SetVlanPrefixSkipsEarlierTests(cmd);
    }
  }

  /**
   * Because `get_words` never counts the last word, "rename interfaces" and
   * "set interface " (the only lines those branches accept) have one and two
   * counted words: neither branch can pass its count check, so
   * `cmd_rename_interfaces` and `cmd_set_vlan_on_interface` are never called.
   */
  lemma RenameAndCreateNeverExecuted(cmd: Option<CStr>, mallocOk: nat -> bool)
    ensures CommandReply(cmd, mallocOk) != Executing(RenameInterfaces)
    ensures CommandReply(cmd, mallocOk) != Executing(SetVlanOnInterface)
  {
    var r := GetWordsResult(cmd, Some(0), mallocOk);
    if r.0 == 0 {
      var c := cmd.value;
      assert r.1 == Some(WordCount(c));
      if c == "rename interfaces" {
        CountRenameInterfaces();
      } else {
        SetInterfaceBranchIsExact(c, r.0, r.1.value);
        if c == "set interface " {
          CountSetInterface();
        }
      }
    }
  }

  /** The counted words of the documented "set vlan" line, with and without a trailing blank. */
  lemma CountSetVlanLines()
    ensures WordCount("set vlan v2 id 2") == 4
    ensures WordCount("set vlan v2 id 2 ") == 5
  {
    SingleWordCountsZero([]);
    WordThenSeparator([], "set", ' ');
    assert [] + "set" + [' '] == "set ";
    WordThenSeparator("set ", "vlan", ' ');
    assert "set " + "vlan" + [' '] == "set vlan ";
    WordThenSeparator("set vlan ", "v2", ' ');
    assert "set vlan " + "v2" + [' '] == "set vlan v2 ";
    WordThenSeparator("set vlan v2 ", "id", ' ');
    assert "set vlan v2 " + "id" + [' '] == "set vlan v2 id ";
    TrailingWordNotCounted("set vlan v2 id ", "2");
    assert "set vlan v2 id " + "2" == "set vlan v2 id 2";
    WordThenSeparator("set vlan v2 id ", "2", ' ');
    assert "set vlan v2 id " + "2" + [' '] == "set vlan v2 id 2 ";
  }

  /**
   * The documented form "set vlan v2 id 2" is refused as badly formatted (four
   * counted words); only with a trailing separator does it reach `cmd_set_vlan`.
   */
  lemma DocumentedSetVlanLine(mallocOk: nat -> bool)
    requires forall n :: mallocOk(n)
    ensures CommandReply(Some("set vlan v2 id 2"), mallocOk) == BadFormat(SetVlan)
    ensures CommandReply(Some("set vlan v2 id 2 "), mallocOk) == Executing(SetVlan)
  {
    CountSetVlanLines();
    SetVlanBranchIsPrefix("set vlan v2 id 2", 0, 4);
    SetVlanBranchIsPrefix("set vlan v2 id 2 ", 0, 5);
    assert "set vlan " <= "set vlan v2 id 2";
    assert "set vlan " <= "set vlan v2 id 2 ";
  }

  /**
   * `process_command`: count the words, then run the test chain. A failed
   * count stops it before any test; the rename and create handlers are never
   * reached; once the count succeeded, the "set vlan" branch is taken iff the
   * line starts with "set vlan ".
   */
  method ProcessCommand(cmd: Option<CStr>, mallocOk: nat -> bool) returns (reply: Reply)
    ensures reply == CommandReply(cmd, mallocOk)
    ensures reply == BadCommandString <==> GetWordsResult(cmd, Some(0), mallocOk).0 < 0
    ensures reply != Executing(RenameInterfaces) && reply != Executing(SetVlanOnInterface)
    ensures GetWordsResult(cmd, Some(0), mallocOk).0 >= 0 ==>
              (Selects(reply, SetVlan) <==> "set vlan " <= cmd.value)
    ensures GetWordsResult(cmd, Some(0), mallocOk).0 >= 0 ==>
              (reply == Executing(SetVlan) <==>
                 "set vlan " <= cmd.value && WordCount(cmd.value) == 5)
  {
    var ret, cnt := GetWords(cmd, Some(0), mallocOk);
    RenameAndCreateNeverExecuted(cmd, mallocOk);
    if ret < 0 {
      return BadCommandString;
    }
    reply := Classify(cmd.value, ret, cnt.value);
    SetVlanBranchIsPrefix(cmd.value, ret, cnt.value);
    ClassifyFallThrough(cmd.value, ret, cnt.value);
  }
}

=== FILE: links.dfy ===
/**
 * The snapshot of the kernel's link table that every command reads
 * (`rtnl_link_alloc_cache`), its two lookups, and the per-link outcomes of
 * the libnl calls a command makes while walking it.
 */
module LinkCache {
  import opened Wrappers
  import opened CString

  /**
   * One cached link: its index, its name (libnl may report none), whether it
   * is a VLAN link, its alias, the index of the link it sits on and its VLAN id.
   */
  datatype Link = Link(
    ifindex: int,
    name: Option<CStr>,
    isVlan: bool,
    alias: Option<CStr>,
    parent: int,
    vlanId: int)

  /**
   * What happens when a command tries to change one link: the change object
   * is allocated and the kernel accepts the request, or the kernel rejects
   * it, or the allocation of the change object fails.
   */
  datatype Attempt = Applied | KernelRejects | AllocFails

  /** Every link index occurs once in the snapshot, as the kernel guarantees. */
  predicate UniqueIndexes(cache: seq<Link>) {
    forall i, j :: 0 <= i < j < |cache| ==> cache[i].ifindex != cache[j].ifindex
  }

  /** `rtnl_link_get_by_name`: the first cached link carrying `name`. */
  function FindByName(cache: seq<Link>, name: CStr): (r: Option<nat>)
    ensures r.Some? ==> r.value < |cache| && cache[r.value].name == Some(name)
    ensures r.Some? ==> forall j :: 0 <= j < r.value ==> cache[j].name != Some(name)
    ensures r.None? ==> forall j :: 0 <= j < |cache| ==> cache[j].name != Some(name)
  {
    if cache == [] then None
    else if cache[0].name == Some(name) then Some(0)
    else match FindByName(cache[1..], name)
      case Some(k) => Some(k + 1)
      case None => None
  }

  /** `rtnl_link_get`: the first cached link with index `ifindex`. */
  function FindByIndex(cache: seq<Link>, ifindex: int): (r: Option<nat>)
    ensures r.Some? ==> r.value < |cache| && cache[r.value].ifindex == ifindex
    ensures r.Some? ==> forall j :: 0 <= j < r.value ==> cache[j].ifindex != ifindex
    ensures r.None? ==> forall j :: 0 <= j < |cache| ==> cache[j].ifindex != ifindex
  {
    if cache == [] then None
    else if cache[0].ifindex == ifindex then Some(0)
    else match FindByIndex(cache[1..], ifindex)
      case Some(k) => Some(k + 1)
      case None => None
  }

  /**
   * Where a walk over the cache that changes the links marked in `selected`
   * stops: at the first selected link whose change object cannot be
   * allocated, or at the end of the cache.
   */
  function FirstAllocFailure(selected: seq<bool>, attempts: seq<Attempt>): (k: nat)
    requires |selected| == |attempts|
    ensures k <= |selected|
    ensures k < |selected| ==> selected[k] && attempts[k] == AllocFails
    ensures forall j :: 0 <= j < k ==> !(selected[j] && attempts[j] == AllocFails)
  {
    if selected == [] then 0
    else if selected[0] && attempts[0] == AllocFails then 0
    else 1 + FirstAllocFailure(selected[1..], attempts[1..])
  }
}

=== FILE: rename.dfy ===
/**
 * `cmd_rename_interfaces`: every cached link whose name starts with `prefix`
 * is renamed to `new_prefix` followed by the rest of its old name, cut to fit
 * an interface name buffer. A kernel rejection is recorded and the walk goes
 * on; a failed allocation is recorded and ends the walk.
 */
module Rename {
  import opened Wrappers
  import opened CString
  import opened LinkCache

  /**
   * The selection test: the link has a name and `strncmp(name, prefix,
   * strlen(prefix)) == 0`. It is a raw prefix test, so the empty prefix
   * selects every named link.
   */
  predicate Selected(prefix: CStr, link: Link)
    ensures Selected(prefix, link) <==> link.name.Some? && prefix <= link.name.value
  {
    link.name.Some? &&
    (StrNCmpPrefix(link.name.value, prefix);
     StrNCmpEqual(link.name.value, prefix, |prefix|))
  }

  /** Which links of the cache are selected, position by position. */
  function Selection(prefix: CStr, cache: seq<Link>): (sel: seq<bool>)
    ensures |sel| == |cache|
    ensures forall i :: 0 <= i < |cache| ==> sel[i] == Selected(prefix, cache[i])
  {
    seq(|cache|, i requires 0 <= i < |cache| => Selected(prefix, cache[i]))
  }

  /**
   * `snprintf(new_name, IFNAMSIZ, "%s%s", new_prefix, name + prefix_len)`:
   * the new prefix, then the old name after its first `prefixLen` characters,
   * cut to at most IFNAMSIZ - 1 characters.
   */
  function NewName(newPrefix: CStr, name: CStr, prefixLen: nat): (r: CStr)
    requires prefixLen <= |name|
    ensures |r| <= IFNAMSIZ - 1
    ensures r <= newPrefix + name[prefixLen..]
    ensures |newPrefix| + |name| - prefixLen <= IFNAMSIZ - 1 ==> r == newPrefix + name[prefixLen..]
    ensures |newPrefix| + |name| - prefixLen > IFNAMSIZ - 1 ==> |r| == IFNAMSIZ - 1
  {
    Truncate(newPrefix + name[prefixLen..], IFNAMSIZ)
  }

  /**
   * Renaming back undoes a rename that did not need truncating: the new name
   * is selected by the new prefix, and swapping the prefixes restores the
   * old name.
   */
  lemma RenameRoundTrip(prefix: CStr, newPrefix: CStr, name: CStr)
    requires prefix <= name && |name| <= IFNAMSIZ - 1
    requires |newPrefix| + |name| - |prefix| <= IFNAMSIZ - 1
    ensures newPrefix <= NewName(newPrefix, name, |prefix|)
    ensures NewName(prefix, NewName(newPrefix, name, |prefix|), |newPrefix|) == name
  {
    var renamed := NewName(newPrefix, name, |prefix|);
    assert renamed == newPrefix + name[|prefix|..];
    assert renamed[|newPrefix|..] == name[|prefix|..];
    assert prefix + name[|prefix|..] == name;
  }

  /** The rename loop over the cache snapshot. */
  method RenameInterfaces(prefix: Option<CStr>, newPrefix: Option<CStr>, cache: seq<Link>, attempts: seq<Attempt>)
    returns (ret: int, after: seq<Link>)
    requires |attempts| == |cache|
    ensures prefix.None? || newPrefix.None? ==> ret == -1 && after == cache
    ensures prefix.Some? && newPrefix.Some? ==> ret == 0 || ret == -5
    ensures prefix.Some? && newPrefix.Some? ==>
              (ret == 0 <==> forall i :: 0 <= i < |cache| && Selected(prefix.value, cache[i]) ==> attempts[i] == Applied)
    ensures |after| == |cache|
    ensures prefix.Some? && newPrefix.Some? ==>
              var stop := FirstAllocFailure(Selection(prefix.value, cache), attempts);
              forall i :: 0 <= i < |cache| ==>
                after[i] == if i < stop && Selected(prefix.value, cache[i]) && attempts[i] == Applied
                            then cache[i].(name := Some(NewName(newPrefix.value, cache[i].name.value, |prefix.value|)))
                            else cache[i]
  {
    if prefix.None? || newPrefix.None? {
      return -1, cache;
    }
    var p := prefix.value;
    var np := newPrefix.value;
    var prefixLen := |p|;
    ghost var stop := FirstAllocFailure(Selection(p, cache), attempts);
    ret := 0;
    after := cache;
    var i := 0;
    while i < |cache|
      invariant 0 <= i <= stop
      invariant ret == 0 || ret == -5
      invariant ret == 0 <==> forall j :: 0 <= j < i && Selected(p, cache[j]) ==> attempts[j] == Applied
      invariant |after| == |cache|
      invariant forall j :: 0 <= j < |cache| ==>
                  after[j] == if j < i && Selected(p, cache[j]) && attempts[j] == Applied
                              then cache[j].(name := Some(NewName(np, cache[j].name.value, prefixLen)))
                              else cache[j]
    {
      var link := cache[i];
      if link.name.None? || !StrNCmpEqual(link.name.value, p, prefixLen) {
        i := i + 1;
        continue;
      }
      var name := link.name.value;
      var newName := NewName(np, name, prefixLen);
      if attempts[i] == AllocFails {
        ret := -5;
        break;
      }
      if attempts[i] == KernelRejects {
        ret := -5;
        i := i + 1;
        continue;
      }
      after := after[i := link.(name := Some(newName))];
      i := i + 1;
    }
  }
}

=== FILE: set_vlan.dfy ===
/**
 * `cmd_set_vlan`: validate the requested VLAN id, then give that id to every
 * cached VLAN link whose alias, or whose name after its last '.', equals the
 * requested version.
 */
module VlanUpdate {
  import opened Wrappers
  import opened CString
  import opened Conversions
  import opened LinkCache

  const VLAN_ID_MIN: int := 1
  const VLAN_ID_MAX: int := 4094

  /** `atoi(id)` is defined only when the value fits an `int`. */
  predicate AtoiDefined(id: CStr) {
    INT_MIN <= Atoi(id) <= INT_MAX
  }

  /** The id check: `atoi(id)` must lie in [1, 4094]. */
  function ParseVlanId(id: CStr): (r: Option<int>)
    ensures r.Some? ==> VLAN_ID_MIN <= r.value <= VLAN_ID_MAX && r.value == Atoi(id)
    ensures r.None? ==> Atoi(id) < VLAN_ID_MIN || Atoi(id) > VLAN_ID_MAX
  {
    var v := Atoi(id);
    if v < VLAN_ID_MIN || v > VLAN_ID_MAX then None else Some(v)
  }

  /** Every decimal spelling of an id in range is accepted as that id, every larger one refused. */
  lemma ParseVlanIdDecimal(n: nat)
    ensures VLAN_ID_MIN <= n <= VLAN_ID_MAX ==> ParseVlanId(Decimal(n)) == Some(n)
    ensures n < VLAN_ID_MIN || n > VLAN_ID_MAX ==> ParseVlanId(Decimal(n)) == None
  {
    AtoiDecimal(n);
  }

  /** The lower boundary: "0" is refused and "1" is accepted. */
  lemma ParseVlanIdLowerBoundary()
    ensures ParseVlanId("0") == None && ParseVlanId("1") == Some(1)
  {
    ParseVlanIdDecimal(0);
    ParseVlanIdDecimal(1);
    assert Decimal(0) == "0";
    assert Decimal(1) == "1";
  }

  /** "4094" spells the largest id. */
  lemma DecimalMaxId()
    ensures Decimal(4094) == "4094" && Decimal(4095) == "4095"
  {
    assert Decimal(40) == "40";
    assert Decimal(409) == "409";
  }

  /** The upper boundary: "4094" is accepted and "4095" is refused. */
  lemma ParseVlanIdUpperBoundary()
    ensures ParseVlanId("4094") == Some(4094) && ParseVlanId("4095") == None
  {
    ParseVlanIdDecimal(4094);
    ParseVlanIdDecimal(4095);
    DecimalMaxId();
  }

  /** A negative id such as "-5" is refused. */
  lemma ParseVlanIdNegative(n: nat)
    ensures ParseVlanId(['-'] + Decimal(n)) == None
  {
    AtoiNegative(n);
  }

  /** Text with no digit after its white space and optional sign parses to 0 and is refused. */
  lemma ParseVlanIdNonNumeric(id: CStr)
    requires NonNumeric(id)
    ensures ParseVlanId(id) == None
  {
    AtoiNonNumeric(id);
  }

  /**
   * Reference form of the suffix test: `name` is some stem, a dot, and then
   * `ver`, with no dot inside `ver`.
   */
  predicate DotSuffix(name: CStr, ver: CStr) {
    '.' !in ver && |ver| < |name| &&
    name[|name| - |ver| - 1] == '.' && name[|name| - |ver|..] == ver
  }

  /** Comparing what follows the dot `strrchr` found is the reference suffix test. */
  lemma LastDotSuffixIff(name: CStr, ver: CStr, dot: Option<nat>)
    requires dot == LastIndexOf(name, '.')
    ensures (dot.Some? && name[dot.value + 1..] == ver) <==> DotSuffix(name, ver)
  {
    if dot.Some? && name[dot.value + 1..] == ver {
      var k := dot.value;
      assert |ver| == |name| - k - 1;
      forall c | c in ver ensures c != '.' {
        var j :| 0 <= j < |ver| && ver[j] == c;
        assert name[k + 1 + j] == c;
      }
    }
    if DotSuffix(name, ver) {
      var k := |name| - |ver| - 1;
      assert name[k] == '.';
    }
  }

  /** `strrchr(name, '.')` found a dot and the text after it is `ver`. */
  predicate SuffixMatches(name: CStr, ver: CStr)
    ensures SuffixMatches(name, ver) <==> DotSuffix(name, ver)
  {
    var dot := LastIndexOf(name, '.');
    LastDotSuffixIff(name, ver, dot);
    dot.Some? && name[dot.value + 1..] == ver
  }

  /** The candidate test: a VLAN link whose alias is `ver` or whose name ends in "." + `ver`. */
  predicate IsCandidate(link: Link, ver: CStr)
    ensures IsCandidate(link, ver) <==>
              link.isVlan &&
              (link.alias == Some(ver) || (link.name.Some? && DotSuffix(link.name.value, ver)))
  {
    link.isVlan &&
    ((link.alias.Some? && link.alias.value == ver) ||
     (link.name.Some? && SuffixMatches(link.name.value, ver)))
  }

  /** Which links of the cache are candidates, position by position. */
  function Candidates(ver: CStr, cache: seq<Link>): (sel: seq<bool>)
    ensures |sel| == |cache|
    ensures forall i :: 0 <= i < |cache| ==>
              (sel[i] <==> cache[i].isVlan &&
                           (cache[i].alias == Some(ver) ||
                            (cache[i].name.Some? && DotSuffix(cache[i].name.value, ver))))
  {
    seq(|cache|, i requires 0 <= i < |cache| => IsCandidate(cache[i], ver))
  }

  /**
   * The two tests are independent: a link with the alias and a link with the
   * name suffix are both candidates, while a non-VLAN link never is.
   */
  lemma AliasOrSuffix(ver: CStr, byAlias: Link, bySuffix: Link, stem: CStr)
    requires '.' !in ver
    requires byAlias.isVlan && byAlias.alias == Some(ver)
    requires bySuffix.isVlan && bySuffix.name == Some(stem + ['.'] + ver)
    ensures IsCandidate(byAlias, ver) && IsCandidate(bySuffix, ver)
    ensures forall l: Link :: !l.isVlan ==> !IsCandidate(l, ver)
  {
    var name: CStr := stem + ['.'] + ver;
    assert name[|name| - |ver|..] == ver;
    assert name[|name| - |ver| - 1] == '.';
  }

  /**
   * The candidate test as the loop body performs it: the alias comparison,
   * then `strrchr` on the name and the comparison of what follows the dot.
   */
  method MatchesVersion(link: Link, ver: CStr) returns (matches: bool)
    ensures matches <==>
              link.isVlan &&
              (link.alias == Some(ver) || (link.name.Some? && DotSuffix(link.name.value, ver)))
  {
    if !link.isVlan {
      return false;
    }
    var aliasMatch := link.alias.Some? && link.alias.value == ver;
    var suffixMatch := false;
    if link.name.Some? {
      var name := link.name.value;
      var dot := LastIndexOf(name, '.');
      LastDotSuffixIff(name, ver, dot);
      if dot.Some? && name[dot.value + 1..] == ver {
        suffixMatch := true;
      }
    }
    return aliasMatch || suffixMatch;
  }

  /** Some candidate before the stop succeeded / failed. */
  predicate AnyApplied(sel: seq<bool>, attempts: seq<Attempt>, stop: nat)
    requires |sel| == |attempts| && stop <= |sel|
  {
    exists j :: 0 <= j < stop && sel[j] && attempts[j] == Applied
  }

  predicate AnyRejected(sel: seq<bool>, attempts: seq<Attempt>, stop: nat)
    requires |sel| == |attempts| && stop <= |sel|
  {
    exists j :: 0 <= j < stop && sel[j] && attempts[j] == KernelRejects
  }

  /**
   * The loop of `cmd_set_vlan` over the cache snapshot: each candidate gets
   * one change request carrying `vlanId`. `retCode` becomes -6 at the first
   * failure and stays there; `found` records that some change was accepted.
   */
  method UpdateCandidates(ver: CStr, vlanId: int, cache: seq<Link>, attempts: seq<Attempt>)
    returns (retCode: int, found: bool, requests: seq<nat>, after: seq<Link>)
    requires |attempts| == |cache|
    ensures var sel := Candidates(ver, cache);
            var stop := FirstAllocFailure(sel, attempts);
            && (retCode == -6 <==> stop < |cache| || AnyRejected(sel, attempts, stop))
            && (retCode == 0 <==> !(stop < |cache| || AnyRejected(sel, attempts, stop)))
            && (found <==> AnyApplied(sel, attempts, stop))
    ensures var sel := Candidates(ver, cache);
            var stop := FirstAllocFailure(sel, attempts);
            && (forall k :: 0 <= k < |requests| ==> requests[k] < stop && sel[requests[k]])
            && (forall j :: 0 <= j < stop && sel[j] ==> j in requests)
            && (forall k, k' :: 0 <= k < k' < |requests| ==> requests[k] < requests[k'])
    ensures |after| == |cache|
    ensures var sel := Candidates(ver, cache);
            var stop := FirstAllocFailure(sel, attempts);
            forall j :: 0 <= j < |cache| ==>
              after[j] == if j < stop && sel[j] && attempts[j] == Applied
                          then cache[j].(vlanId := vlanId) else cache[j]
  {
    ghost var sel := Candidates(ver, cache);
    ghost var stop := FirstAllocFailure(sel, attempts);
    found := false;
    retCode := 0;
    requests := [];
    after := cache;
    var i := 0;
    while i < |cache|
      invariant 0 <= i <= stop
      invariant retCode == 0 || retCode == -6
      invariant retCode == -6 <==> AnyRejected(sel, attempts, i)
      invariant found <==> AnyApplied(sel, attempts, i)
      invariant forall k :: 0 <= k < |requests| ==> requests[k] < i && sel[requests[k]]
      invariant forall j :: 0 <= j < i && sel[j] ==> j in requests
      invariant forall k, k' :: 0 <= k < k' < |requests| ==> requests[k] < requests[k']
      invariant |after| == |cache|
      invariant forall j :: 0 <= j < |cache| ==>
                  after[j] == if j < i && sel[j] && attempts[j] == Applied
                              then cache[j].(vlanId := vlanId) else cache[j]
    {
      var link := cache[i];
      var matches := MatchesVersion(link, ver);
      if !matches {
        assert !sel[i];
        assert AnyRejected(sel, attempts, i + 1) == AnyRejected(sel, attempts, i);
        assert AnyApplied(sel, attempts, i + 1) == AnyApplied(sel, attempts, i);
        i := i + 1;
        continue;
      }
      assert sel[i];
      if attempts[i] == AllocFails {
        assert stop == i;
        retCode := -6;
        break;
      }
      requests := requests + [i];
      if attempts[i] == KernelRejects {
        assert AnyRejected(sel, attempts, i + 1);
        assert AnyApplied(sel, attempts, i + 1) == AnyApplied(sel, attempts, i);
        retCode := -6;
        i := i + 1;
        continue;
      }
      assert AnyApplied(sel, attempts, i + 1);
      assert AnyRejected(sel, attempts, i + 1) == AnyRejected(sel, attempts, i);
      after := after[i := link.(vlanId := vlanId)];
      found := true;
      i := i + 1;
    }
  }

  /** `cmd_set_vlan(ver, id)` from the argument checks to the return code. */
  method SetVlan(ver: Option<CStr>, id: Option<CStr>, cache: seq<Link>, attempts: seq<Attempt>)
    returns (ret: int, requests: seq<nat>, after: seq<Link>)
    requires |attempts| == |cache|
    requires ver.Some? && id.Some? ==> AtoiDefined(id.value)
    ensures ver.None? || id.None? || ParseVlanId(id.value).None? ==>
              ret == -1 && requests == [] && after == cache
    ensures |after| == |cache|
    // a change request goes to each candidate before the stop, once, in cache order
    ensures ver.Some? && id.Some? && ParseVlanId(id.value).Some? ==>
              var sel := Candidates(ver.value, cache);
              var stop := FirstAllocFailure(sel, attempts);
              && (forall k :: 0 <= k < |requests| ==> requests[k] < stop && sel[requests[k]])
              && (forall j :: 0 <= j < stop && sel[j] ==> j in requests)
              && (forall k, k' :: 0 <= k < k' < |requests| ==> requests[k] < requests[k'])
    // the links the kernel accepted it for carry the new id, nothing else changes
    ensures ver.Some? && id.Some? && ParseVlanId(id.value).Some? ==>
              var sel := Candidates(ver.value, cache);
              var stop := FirstAllocFailure(sel, attempts);
              forall j :: 0 <= j < |cache| ==>
                after[j] == if j < stop && sel[j] && attempts[j] == Applied
                            then cache[j].(vlanId := ParseVlanId(id.value).value) else cache[j]
    // a failure is sticky; -5 only when no change was attempted
    ensures ver.Some? && id.Some? && ParseVlanId(id.value).Some? ==>
              var sel := Candidates(ver.value, cache);
              var stop := FirstAllocFailure(sel, attempts);
              && ret in {0, -5, -6}
              && (stop < |cache| || AnyRejected(sel, attempts, stop) ==> ret == -6)
              && (ret == -5 <==> stop == |cache| && !AnyRejected(sel, attempts, stop) && !AnyApplied(sel, attempts, stop))
              && (ret == 0 <==> stop == |cache| && !AnyRejected(sel, attempts, stop) && AnyApplied(sel, attempts, stop))
  {
    if ver.None? || id.None? {
      return -1, [], cache;
    }
    var vlanId := Atoi(id.value);
    if vlanId < VLAN_ID_MIN || vlanId > VLAN_ID_MAX {
      return -1, [], cache;
    }
    var found;
    ret, found, requests, after := UpdateCandidates(ver.value, vlanId, cache, attempts);
    if !found && ret == 0 {
      ret := -5;
    }
  }
}

=== FILE: show.dfy ===
/**
 * `cmd_show_vlan`: one table row per VLAN link of the snapshot, in cache
 * order, giving its name, the name of the link it sits on ("-" when that
 * link is not in the snapshot) and its VLAN id.
 */
module VlanShow {
  import opened Wrappers
  import opened CString
  import opened LinkCache
  import opened VlanCreate

  /** What the table shows for a link whose parent is not in the snapshot. */
  const NO_PARENT: CStr := "-"

  /** One table row; a name libnl does not report stays NULL. */
  datatype VlanRow = VlanRow(name: Option<CStr>, parent: Option<CStr>, vlanId: int)

  /**
   * The parent column: the name of the link `rtnl_link_get` finds under the
   * parent index, or "-" when there is none.
   */
  function ParentName(cache: seq<Link>, parentIndex: int): (r: Option<CStr>)
    ensures (forall j :: 0 <= j < |cache| ==> cache[j].ifindex != parentIndex) ==> r == Some(NO_PARENT)
    ensures forall j :: 0 <= j < |cache| && cache[j].ifindex == parentIndex &&
                        (forall i :: 0 <= i < j ==> cache[i].ifindex != parentIndex) ==>
              r == cache[j].name
  {
    match FindByIndex(cache, parentIndex)
    case None => Some(NO_PARENT)
    case Some(k) => cache[k].name
  }

  /** The row printed for a VLAN link. */
  function Row(cache: seq<Link>, link: Link): (row: VlanRow)
    ensures row.name == link.name && row.vlanId == link.vlanId
    ensures row.parent == ParentName(cache, link.parent)
  {
    VlanRow(link.name, ParentName(cache, link.parent), link.vlanId)
  }

  /** The rows for `links`, a prefix of the walk, with parents looked up in `cache`. */
  function RowsOf(cache: seq<Link>, links: seq<Link>): (rows: seq<VlanRow>)
    ensures |rows| <= |links|
  {
    if links == [] then []
    else
      var last := links[|links| - 1];
      RowsOf(cache, links[..|links| - 1]) + (if last.isVlan then [Row(cache, last)] else [])
  }

  /** The whole table. */
  function VlanTable(cache: seq<Link>): (rows: seq<VlanRow>)
    ensures |rows| <= |cache|
  {
    RowsOf(cache, cache)
  }

  /** The positions of the VLAN links among `links`. */
  function VlanPositions(links: seq<Link>): (s: set<nat>)
    ensures forall j :: j in s ==> j < |links|
    ensures forall j :: 0 <= j < |links| ==> (j in s <==> links[j].isVlan)
  {
    set j: nat | j < |links| && links[j].isVlan
  }

  /** The walk of `cmd_show_vlan` over the snapshot; its return code is 0. */
  method ShowVlan(cache: seq<Link>) returns (ret: int, rows: seq<VlanRow>)
    ensures ret == 0
    ensures rows == VlanTable(cache)
  {
    rows := [];
    var i := 0;
    while i < |cache|
      invariant 0 <= i <= |cache|
      invariant rows == RowsOf(cache, cache[..i])
    {
      var link := cache[i];
      assert cache[..i + 1][..i] == cache[..i];
      if !link.isVlan {
        i := i + 1;
        continue;
      }
      var parentName := Some(NO_PARENT);
      var parentLink := FindByIndex(cache, link.parent);
      if parentLink.Some? {
        parentName := cache[parentLink.value].name;
      }
      rows := rows + [VlanRow(link.name, parentName, link.vlanId)];
      i := i + 1;
    }
    assert cache[..i] == cache;
    return 0, rows;
  }

  /** One row per VLAN link among `links`. */
  lemma {:induction false} RowsOfCount(cache: seq<Link>, links: seq<Link>)
    ensures |RowsOf(cache, links)| == |VlanPositions(links)|
  {
    if links != [] {
      var n := |links| - 1;
      var init := links[..n];
      RowsOfCount(cache, init);
      if links[n].isVlan {
        assert VlanPositions(links) == VlanPositions(init) + {n};
      } else {
        assert VlanPositions(links) == VlanPositions(init);
      }
    }
  }

  /** Every row belongs to a VLAN link of `links`. */
  lemma {:induction false} RowsOfSound(cache: seq<Link>, links: seq<Link>)
    ensures forall row :: row in RowsOf(cache, links) ==>
              exists j :: 0 <= j < |links| && links[j].isVlan && row == Row(cache, links[j])
  {
    if links != [] {
      var n := |links| - 1;
      var init := links[..n];
      RowsOfSound(cache, init);
      forall row | row in RowsOf(cache, links)
        ensures exists j :: 0 <= j < |links| && links[j].isVlan && row == Row(cache, links[j])
      {
        if row in RowsOf(cache, init) {
          var j :| 0 <= j < |init| && init[j].isVlan && row == Row(cache, init[j]);
          assert links[j] == init[j];
        } else {
          assert links[n].isVlan && row == Row(cache, links[n]);
        }
      }
    }
  }

  /** Every VLAN link of `links` has its row. */
  lemma {:induction false} RowsOfComplete(cache: seq<Link>, links: seq<Link>)
    ensures forall j :: 0 <= j < |links| && links[j].isVlan ==> Row(cache, links[j]) in RowsOf(cache, links)
  {
    if links != [] {
      var n := |links| - 1;
      var init := links[..n];
      RowsOfComplete(cache, init);
      forall j | 0 <= j < |links| && links[j].isVlan
        ensures Row(cache, links[j]) in RowsOf(cache, links)
      {
        if j < n {
          assert init[j] == links[j];
        }
      }
    }
  }

  /**
   * The table lists exactly the VLAN links: one row per VLAN link, every row
   * from a VLAN link, no other link shown.
   */
  lemma VlanTableListsVlans(cache: seq<Link>)
    ensures |VlanTable(cache)| == |VlanPositions(cache)|
    ensures forall row :: row in VlanTable(cache) ==>
              exists j :: 0 <= j < |cache| && cache[j].isVlan && row == Row(cache, cache[j])
    ensures forall j :: 0 <= j < |cache| && cache[j].isVlan ==> Row(cache, cache[j]) in VlanTable(cache)
  {
    RowsOfCount(cache, cache);
    RowsOfSound(cache, cache);
    RowsOfComplete(cache, cache);
  }

  /** Adding a link under a new index leaves every other lookup by index as it was. */
  lemma {:induction false} FindByIndexAppend(cache: seq<Link>, l: Link, ifindex: int)
    requires ifindex != l.ifindex
    ensures FindByIndex(cache + [l], ifindex) == FindByIndex(cache, ifindex)
  {
    if cache != [] {
      assert (cache + [l])[1..] == cache[1..] + [l];
      FindByIndexAppend(cache[1..], l, ifindex);
    }
  }

  /** Rows of links that do not sit on the new link do not change when it is added. */
  lemma {:induction false} RowsOfAppend(cache: seq<Link>, l: Link, links: seq<Link>)
    requires forall j :: 0 <= j < |links| ==> links[j].parent != l.ifindex
    ensures RowsOf(cache + [l], links) == RowsOf(cache, links)
  {
    if links != [] {
      var n := |links| - 1;
      RowsOfAppend(cache, l, links[..n]);
      FindByIndexAppend(cache, l, links[n].parent);
    }
  }

  /**
   * Creating a VLAN link and then showing the table: when the kernel adds the
   * new link at the end of the snapshot under an index no link uses or sits
   * on, the table gains exactly one row, naming the new link, its parent
   * interface and the placeholder id 1.
   */
  lemma CreateThenShow(iface: CStr, vlanType: CStr, ver: CStr, cache: seq<Link>, newIndex: int)
    requires UniqueIndexes(cache)
    requires forall j :: 0 <= j < |cache| ==> cache[j].ifindex != newIndex && cache[j].parent != newIndex
    requires SetVlanOnInterface(Some(iface), Some(vlanType), Some(ver), cache, true, true).ret == 0
    ensures var r := SetVlanOnInterface(Some(iface), Some(vlanType), Some(ver), cache, true, true);
            VlanTable(cache + [CreatedLink(r.request.value, newIndex)]) ==
              VlanTable(cache) + [VlanRow(Some(VlanName(iface, ver)), Some(iface), PLACEHOLDER_VLAN_ID)]
  {
    var r := SetVlanOnInterface(Some(iface), Some(vlanType), Some(ver), cache, true, true);
    var l := CreatedLink(r.request.value, newIndex);
    var after := cache + [l];
    var p := FindByName(cache, iface).value;
    assert after[..|after| - 1] == cache;
    RowsOfAppend(cache, l, cache);
    FindByIndexAppend(cache, l, cache[p].ifindex);
    assert FindByIndex(cache, cache[p].ifindex) == Some(p);
  }
}

=== FILE: words.dfy ===
/**
 * The command-line word counter `get_words`. It walks the string one
 * character at a time, positions 0 through strlen(str) inclusive, and commits
 * a word whenever a separator follows a word character. Two quirks of
 * `get_words` are modelled: the digit '0' is a separator just like ' ', and the
 * terminating NUL counts as a word character, so the last word of a string
 * is committed only when a separator follows it.
 *
 * Only the count and the return code are modelled; the word copies themselves
 * are not (see README).
 */
module Words {
  import opened Wrappers
  import opened CString

  /** The separator test of the scanning loop. */
  predicate IsSeparator(c: char) {
    c == ' ' || c == '0'
  }

  /** Position `j` commits a word: a separator right after a word character. */
  predicate CommitsAt(s: CStr, j: nat)
    requires j <= |s|
  {
    0 < j && IsSeparator(CharAt(s, j)) && !IsSeparator(CharAt(s, j - 1))
  }

  /** Number of words committed while scanning positions `0 .. i-1`. */
  function CommitsBefore(s: CStr, i: nat): nat
    requires i <= |s| + 1
  {
    if i == 0 then 0
    else CommitsBefore(s, i - 1) + (if CommitsAt(s, i - 1) then 1 else 0)
  }

  /** The count `get_words` stores once the whole string has been scanned. */
  function WordCount(s: CStr): nat {
    CommitsBefore(s, |s| + 1)
  }

  /** A separator at position `j` of `s` right after a word character. */
  predicate BoundaryAt(s: CStr, j: nat)
    requires 0 < j < |s|
  {
    IsSeparator(s[j]) && !IsSeparator(s[j - 1])
  }

  /** Positions strictly inside `s` at which a separator follows a word character. */
  function Boundaries(s: CStr): set<nat> {
    set j: nat | 0 < j < |s| && BoundaryAt(s, j)
  }

  /** The positions among `1 .. i` at which the scan commits a word. */
  function CommitPositions(s: CStr, i: nat): set<nat>
    requires i <= |s|
  {
    set j: nat | 0 < j <= i && CommitsAt(s, j)
  }

  /** The least `k < n` with `!ok(base + k)`, or `n` when there is none. */
  function FirstFailure(ok: nat -> bool, base: nat, n: nat): (k: nat)
    ensures k <= n
    ensures forall j :: base <= j < base + k ==> ok(j)
    ensures k < n ==> !ok(base + k)
    decreases n
  {
    if n == 0 then 0
    else if !ok(base) then 0
    else 1 + FirstFailure(ok, base + 1, n - 1)
  }

  /**
   * Return code and final `*cnt` of `get_words(str, NULL, cnt)`. `cnt` is the
   * caller's integer behind the pointer (None for a NULL pointer). The
   * allocations of one call are numbered: 0 is the `words` array, 1 the
   * scratch `word` buffer, `2 + k` the copy of the k-th committed word;
   * `mallocOk(n)` says whether allocation `n` succeeds.
   */
  function GetWordsResult(str: Option<CStr>, cnt: Option<int>, mallocOk: nat -> bool): (r: (int, Option<int>))
    ensures str.None? ==> r == (-1, cnt)
    ensures str.Some? && cnt.None? ==> r == (-2, None)
    ensures r.0 == 0 <==>
              && str.Some? && cnt.Some? && mallocOk(0) && mallocOk(1)
              && forall k :: 2 <= k < 2 + WordCount(str.value) ==> mallocOk(k)
    ensures r.0 == 0 ==> r.1 == Some(WordCount(str.value))
    ensures r.0 == -5 ==> str.Some? && r.1.Some? && 0 <= r.1.value < WordCount(str.value)
                          && !mallocOk(2 + r.1.value)
    ensures r.0 < 0 && str.Some? && cnt.Some? ==> r.0 in {-3, -4, -5}
    // the counter is reset before any allocation
    ensures r.0 in {-3, -4} ==> r.1 == Some(0)
    // -3: the `words` array; -4: the `word` buffer
    ensures r.0 == -3 <==> str.Some? && cnt.Some? && !mallocOk(0)
    ensures r.0 == -4 <==> str.Some? && cnt.Some? && mallocOk(0) && !mallocOk(1)
    // -5: every earlier word copy was allocated
    ensures r.0 == -5 ==> mallocOk(0) && mallocOk(1) &&
                          forall k :: 2 <= k < 2 + r.1.value ==> mallocOk(k)
    ensures r.0 <= 0
  {
    if str.None? then (-1, cnt)
    else if cnt.None? then (-2, None)
    else if !mallocOk(0) then (-3, Some(0))
    else if !mallocOk(1) then (-4, Some(0))
    else
      var n := WordCount(str.value);
      var k := FirstFailure(mallocOk, 2, n);
      if k < n then (-5, Some(k)) else (0, Some(n))
  }

  lemma {:induction false} CommitsBeforeMonotonic(s: CStr, i: nat, j: nat)
    requires i <= j <= |s| + 1
    ensures CommitsBefore(s, i) <= CommitsBefore(s, j)
    decreases j - i
  {
    if i < j {
      CommitsBeforeMonotonic(s, i, j - 1);
    }
  }

  /** The scanning loop of `get_words`, with its early exits. */
  method GetWords(str: Option<CStr>, cnt: Option<int>, mallocOk: nat -> bool)
    returns (ret: int, cntOut: Option<int>)
    ensures (ret, cntOut) == GetWordsResult(str, cnt, mallocOk)
  {
    if str.None? {
      return -1, cnt;
    }
    if cnt.None? {
      return -2, None;
    }
    var s := str.value;
    var count := 0;
    var length := |s|;
    if !mallocOk(0) {
      return -3, Some(count);
    }
    if !mallocOk(1) {
      return -4, Some(count);
    }
    ghost var n := WordCount(s);
    var inWord := false;
    var i := 0;
    while i <= length
      invariant 0 <= i <= length + 1
      invariant count == CommitsBefore(s, i)
      invariant inWord == (i > 0 && !IsSeparator(CharAt(s, i - 1)))
      invariant forall k :: 2 <= k < 2 + count ==> mallocOk(k)
    {
      var c := CharAt(s, i);
      if !IsSeparator(c) {
        inWord := true;
      } else {
        if inWord {
          if !mallocOk(2 + count) {
            CommitsBeforeMonotonic(s, i + 1, length + 1);
            assert FirstFailure(mallocOk, 2, n) == count;
            return -5, Some(count);
          }
          count := count + 1;
        }
        inWord := false;
      }
      i := i + 1;
    }
    assert FirstFailure(mallocOk, 2, n) == n;
    return 0, Some(count);
  }

  /** The count is the number of separator-after-word positions strictly inside the string. */
  lemma WordCountIsBoundaryCount(s: CStr)
    ensures WordCount(s) == |Boundaries(s)|
  {
    CommitsBeforeCountsPositions(s, |s|);
    assert Boundaries(s) == CommitPositions(s, |s|) by {
      forall j: nat | 0 < j <= |s|
        ensures CommitsAt(s, j) <==> j < |s| && BoundaryAt(s, j)
      {
      }
    }
  }

  lemma {:induction false} CommitsBeforeCountsPositions(s: CStr, i: nat)
    requires i <= |s|
    ensures CommitsBefore(s, i + 1) == |CommitPositions(s, i)|
  {
    if i == 0 {
      assert CommitPositions(s, 0) == {};
    } else {
      CommitsBeforeCountsPositions(s, i - 1);
      if CommitsAt(s, i) {
        assert CommitPositions(s, i) == CommitPositions(s, i - 1) + {i};
      } else {
        assert CommitPositions(s, i) == CommitPositions(s, i - 1);
      }
    }
  }

  lemma {:induction false} CommitsBeforePrefix(s: CStr, t: CStr, i: nat)
    requires s <= t && i <= |s|
    ensures CommitsBefore(t, i) == CommitsBefore(s, i)
  {
    if i > 0 {
      CommitsBeforePrefix(s, t, i - 1);
      assert CharAt(t, i - 1) == CharAt(s, i - 1);
    }
  }

  /** Extending the last word by one character leaves the count unchanged. */
  lemma AppendWordChar(s: CStr, c: char)
    requires !IsSeparator(c) && c != '\0'
    ensures WordCount(s + [c]) == WordCount(s)
  {
    var t: CStr := s + [c];
    CommitsBeforePrefix(s, t, |s|);
    assert CharAt(t, |s|) == c && !CommitsAt(t, |s|);
    assert !CommitsAt(t, |s| + 1) && !CommitsAt(s, |s|);
    assert CommitsBefore(t, |s| + 1) == CommitsBefore(t, |s|);
    assert WordCount(t) == CommitsBefore(t, |s| + 1);
  }

  /** A separator commits the word before it, if there is one. */
  lemma AppendSeparator(s: CStr, c: char)
    requires IsSeparator(c)
    ensures WordCount(s + [c]) == WordCount(s) + (if s != [] && !IsSeparator(s[|s| - 1]) then 1 else 0)
  {
    var t: CStr := s + [c];
    CommitsBeforePrefix(s, t, |s|);
    assert CharAt(t, |s|) == c;
    if s != [] {
      assert CharAt(t, |s| - 1) == s[|s| - 1];
    }
    assert !CommitsAt(t, |s| + 1) && !CommitsAt(s, |s|);
    assert CommitsBefore(t, |s| + 1) == CommitsBefore(t, |s|) + (if CommitsAt(t, |s|) then 1 else 0);
    assert WordCount(t) == CommitsBefore(t, |s| + 1);
  }

  /** A trailing word, however long, is never counted. */
  lemma {:induction false} TrailingWordNotCounted(s: CStr, w: CStr)
    requires forall i :: 0 <= i < |w| ==> !IsSeparator(w[i])
    ensures WordCount(s + w) == WordCount(s)
  {
    if w != [] {
      var u := w[..|w| - 1];
      assert s + w == (s + u) + [w[|w| - 1]];
      TrailingWordNotCounted(s, u);
      AppendWordChar(s + u, w[|w| - 1]);
    } else {
      assert s + w == s;
    }
  }

  /** A string without separators holds no counted word. */
  lemma SingleWordCountsZero(w: CStr)
    requires forall i :: 0 <= i < |w| ==> !IsSeparator(w[i])
    ensures WordCount(w) == 0
  {
    TrailingWordNotCounted([], w);
    assert [] + w == w;
    assert WordCount([]) == CommitsBefore([], 0) == 0;
  }

  /**
   * The count after a word and a separator: `s + w + [c]` with `w` a
   * non-empty word commits exactly one more word than `s`.
   */
  lemma WordThenSeparator(s: CStr, w: CStr, c: char)
    requires w != [] && forall i :: 0 <= i < |w| ==> !IsSeparator(w[i])
    requires IsSeparator(c)
    ensures WordCount(s + w + [c]) == WordCount(s) + 1
  {
    TrailingWordNotCounted(s, w);
    AppendSeparator(s + w, c);
  }
}

=== FILE: wrappers.dfy ===
/** Optional values: `None` stands for a NULL pointer in the C program. */
module Wrappers {
  datatype Option<+T> = None | Some(value: T)
}
